=== FILE: README.md ===
# AdsBot ad-creation wizard, modelled in Dafny

This project models the "sell" dialog of the AdsBot Telegram bot: the wizard in
`tgbot/handlers/sell.py` through which a user writes an ad. The dialog walks through
six windows — title, description, price, contact, photo, tags — and then a final `Done`
window. Each window shows a live preview of the ad built from the user's `widget_data`
record.

The model is functional: the dialog state is an enum, the record is an immutable datatype,
and every handler is a pure function. The modules are:

- `Wrappers` (`wrappers.dfy`): `Option` and the pass/fail `Outcome` of a validator.
- `States` (`states.dfy`): the `Sell` states in window order. `ChangePage` is the arrow/input
  navigation of `change_page`. The lemmas show that the arrows turn a ring of six windows.
- `Validators` (`validators.dfy`): the title, description and price checks, and the leading-`+`
  normalisation of phone numbers. The `phonenumbers` library is passed in as the function-valued
  fields of a `PhoneLib`.
- `WidgetData` (`widget_data.dfy`): the `widget_data` record and its handlers. These are the tag
  buttons, tag deletion, currency selection, the start-up default, the photo collector and the
  hashtag line.
- `Preview` (`preview.dfy`): `get_active_section`, and `get_sell_text` as a structured screen.
  The screen has an instruction (topic plus first-time/edit flag), six lines (label, underline
  flag, value cell) and the page-button text.
- `Wizard` (`wizard.dfy`): the whole dialog. It routes each event to the handler the current
  window carries. It also holds the invariant every reachable record keeps, runs of events, the
  unbounded photo collection, and a complete sample session.

Where the code behaves differently from what its names and texts suggest, the model follows the code:

- `fixed_size_64` rejects only titles longer than 128 characters, not 64.
- A price of exactly 0.01 is refused, because the comparison is strict.
- Nothing caps the number of photos. The maximum of 5 appears only in the instruction text.
- `add_tag` overwrites any tag. Only the `when=` gating of the tag window stops a second tag
  from replacing the first.
- The "preview" target of the `SwitchTo` button has no window in this dialog.
- A whole price typed with a decimal point, such as "10.0", passes the price check but breaks the preview (see Findings). The model's preview uses the intended display.
- The photo instruction consults a `quantity` key that no handler writes. Its edit wording
  therefore never appears.

Assumptions about the dialog library, which is not part of this model:

- A text input stores the accepted message text under its id, then calls its `on_success`
  handler (here `change_page`).
- `next()` and `back()` move one window in declaration order.
- A click reaches only the widgets the current window renders.
- Pressing a radio item also checks it.
- The checkbox toggles.

## Model

| member | source | states |
|---|---|---|
| States.ChangePage | tgbot/handlers/sell.py:139-155 | `<<` from the title goes to tags, `>>` from tags goes to the title, otherwise `<<`/`>>` move one window back/forward. An accepted input moves one window forward except in tags, where it stays. Navigation never leaves the six ring windows. |
| States.ArrowsAreRing | tgbot/handlers/sell.py:144-153 | On the six windows, `>>` is +1 and `<<` is -1 modulo six in window order. |
| States.ArrowsAreInverse | tgbot/handlers/sell.py:144-153 | `<<` undoes `>>` and `>>` undoes `<<` on every ring window, the wrap-around included. |
| States.PressRightAdvances | tgbot/handlers/sell.py:149-153 | n presses of `>>` land n positions further round the ring, modulo six. |
| States.PressLeftRetreats | tgbot/handlers/sell.py:144-148 | n presses of `<<` land n positions back round the ring, modulo six. |
| States.WholeTurns | tgbot/handlers/sell.py:144-153 | Any multiple of six presses of either arrow returns to the starting window. |
| Validators.FixedSize64 | tgbot/handlers/sell.py:195-197 | The title check passes exactly the texts of at most 128 characters. |
| Validators.TitleCheckAllowsPast64 | tgbot/handlers/sell.py:195-197 | Titles of 65 to 128 characters pass, despite the 64 in the check's name. |
| Validators.FixedSize1024 | tgbot/handlers/sell.py:200-202 | The description check passes exactly the texts of at most 1024 characters. |
| Validators.TitleCheckStricter | tgbot/handlers/sell.py:195-202 | Every text the title check passes, the description check passes too. |
| Validators.PositiveFloat | tgbot/handlers/sell.py:205-209 | The price check passes exactly when the text parses as a number strictly above 0.01; unparsable text is refused as not a number. |
| Validators.MinimumPriceRejected | tgbot/handlers/sell.py:205-209 | A price of exactly 0.01 is refused. |
| Validators.WithPlus | tgbot/handlers/sell.py:214-215 | The normalised number starts with `+`. Text that already does is kept; otherwise the text follows the added `+` unchanged. |
| Validators.WithPlusIdempotent | tgbot/handlers/sell.py:43-44 | Normalising a normalised number changes nothing. |
| Validators.WithPlusIgnoresPrefix | tgbot/handlers/sell.py:214-215 | Typing the `+` or leaving it out gives the same normalised number. |
| Validators.ValidatePhone | tgbot/handlers/sell.py:212-228 | The contact passes exactly when the normalised text parses to a number that is both possible and valid. Every failure, parse errors included, is the same rejection. |
| Validators.ValidatePhoneIgnoresPrefix | tgbot/handlers/sell.py:212-228 | The contact verdict is the same with or without the typed `+`. |
| Validators.HumanizePhone | tgbot/handlers/sell.py:42-46 | For a contact the validator accepted, the shown text is the international format of the very number that was found possible and valid. |
| Validators.HumanizeAfterValidate | tgbot/handlers/sell.py:42-46 | A contact that passed validation parses again when the preview humanises it, so showing it cannot fail. |
| Validators.HumanizeIgnoresPrefix | tgbot/handlers/sell.py:42-46 | A stored contact is shown the same whether or not the user typed the `+`. |
| WidgetData.TagFor | tgbot/handlers/sell.py:161-174 | A tag results exactly for the ten known button ids; each tag is one of the table's non-empty values. |
| WidgetData.TagForInjective | tgbot/handlers/sell.py:161-172 | Different buttons store different tags. |
| WidgetData.AddTag | tgbot/handlers/sell.py:158-174 | The tag becomes the button's tag, or none for an unknown id, whatever was there; no other key changes. |
| WidgetData.AddTagOverwrites | tgbot/handlers/sell.py:174 | Of two tag presses the last one wins. |
| WidgetData.DeleteTag | tgbot/handlers/sell.py:182-183 | After deletion the tag is empty; no other key changes. |
| WidgetData.DeleteUndoesAdd | tgbot/handlers/sell.py:174-183 | Adding then deleting a tag equals deleting alone. |
| WidgetData.TagPredicatesComplement | tgbot/handlers/sell.py:186-191 | `tag_is_empty` holds exactly when `tag_exist` does not. |
| WidgetData.TagIsEmpty | tgbot/handlers/sell.py:186-187 | `tag_is_empty` holds exactly when deleting the tag would change nothing; the tag line then is the bare `#продам`. |
| WidgetData.TagExist | tgbot/handlers/sell.py:190-191 | `tag_exist` holds exactly when a tag is stored, so that deleting it changes the record. |
| WidgetData.CurrencySelected | tgbot/handlers/sell.py:177-179 | A known code stores one of the four symbols, distinct from every other code's symbol; no other key changes. |
| WidgetData.RadioMatchesCurrencies | tgbot/handlers/sell.py:262-269 | The radio lists exactly the four known codes, each labelled with the symbol `currency_selected` stores for it. |
| WidgetData.DisplayCurrency | tgbot/handlers/sell.py:58 | The preview shows the stored currency symbol; with none stored it shows `₴`, which is UAH's symbol in the currency table. |
| WidgetData.SetDefault | tgbot/handlers/sell.py:258-259 | The UAH radio item is checked and nothing else changes. With no currency chosen, the preview's symbol is UAH's. |
| WidgetData.PicValidator | tgbot/handlers/sell.py:247-254 | A photo appends its largest size's id at the end of the list, creating the list if absent, with no cap. Any other content is refused; a refused message changes nothing. |
| WidgetData.MakeTags | tgbot/handlers/sell.py:30-39 | The line starts with the board hashtag. It is exactly that hashtag when the tag is missing or empty; otherwise `, #` and the tag follow. |
| WidgetData.MakeTagsRoundTrip | tgbot/handlers/sell.py:30-39 | The chosen tag can be read back from the line; a missing or empty tag reads back as none. |
| Preview.ActiveSection | tgbot/handlers/sell.py:18-27 | A page name exists exactly for the six ring windows. |
| Preview.ActiveSectionInjective | tgbot/handlers/sell.py:18-27 | Each ring window has its own page name. |
| Preview.Render | tgbot/handlers/sell.py:49-136 | Six lines in window order with their labels, each underlined exactly when it is the current state's. The page text is the active section. The instruction speaks of the current field, or of tags in any other state, and uses the edit wording exactly when that field's key holds data. |
| Preview.ScreenTexts | tgbot/handlers/sell.py:18-72 | The six line labels are the source's texts, "Заголовок товара или услуг" to "Теги", in window order, and each ring window's page button shows its `get_active_section` name. |
| Preview.UnderlineMarksActiveSection | tgbot/handlers/sell.py:67-72 | Exactly the line at the current window's position is underlined; in `Done`, none is. |
| Preview.PlaceholdersMarkMissingData | tgbot/handlers/sell.py:55-63 | The title, description and photo lines show the dash exactly when their data is missing, and the contact line whenever it is. An entered title or description is shown as stored. An entered contact with a non-empty humanised form shows that form. The photo line otherwise counts the photos. |
| Preview.PriceLineAnnotation | tgbot/handlers/sell.py:57-76 | Currency and negotiability note appear only with a set price. The shown number is the intended display of the price: its value, and a whole number exactly when the price is whole. The currency is the chosen symbol or `₴`. The note is the negotiable note when the checkbox is on and the final-price note when it is off. |
| Preview.PriceShownAsWritten | tgbot/handlers/sell.py:57 | The price display as written fails exactly when the price is whole and `int()` refuses the stored text; a fractional price is shown as it is. |
| Preview.WholeDecimalPriceBreaksPreview | tgbot/handlers/sell.py:57 | The text "10.0" passes the price check, yet the display as written fails on it. |
| Preview.PriceShown | tgbot/handlers/sell.py:57 | The intended display has the price's value, and is a whole number exactly when the price is whole. |
| Preview.PriceShownAgrees | tgbot/handlers/sell.py:57 | Wherever `int()` of the text gives the whole value, the display as written equals the intended one. |
| Preview.TagLineShowsTag | tgbot/handlers/sell.py:64 | The tag line is exactly `make_tags(tag, "sell")`: it starts with `#продам`, and the chosen tag reads back from it. |
| Preview.PromptFollowsEntry | tgbot/handlers/sell.py:81-134 | Outside the photo window, the edit wording appears exactly when the active field is entered. |
| Preview.PhotoPromptIgnoresPhotos | tgbot/handlers/sell.py:118-126 | In the photo window the wording depends on the `quantity` key alone. |
| Wizard.Start | tgbot/handlers/sell.py:389 | The dialog starts in the title window with nothing entered, negotiability and `quantity` off, and the UAH radio item checked, whose symbol the preview shows. |
| Wizard.Shows | tgbot/handlers/sell.py:272-306 | Every ring window shows the arrows and "Готово", and `Done` shows nothing. Tag buttons and the delete button appear only in the tag window: the tag buttons exactly when `tag_is_empty` holds (line 285), the delete button exactly when `tag_exist` does (line 376). Only the ten known tag ids have buttons. The checkbox is shown exactly in the price window (lines 331-336), and the radio items appear only there, one per known currency. |
| Wizard.Accept | tgbot/handlers/sell.py:312-316 | A text input's outcome: the reply is `Updated` exactly when the verdict passes; then the record is the one to store and the dialog moves one window forward (staying in tags). A refused text leaves the dialog as it was, with the `Invalid` reply of `on_error`. |
| Wizard.Press | tgbot/handlers/sell.py:272-306 | A button the window does not show does nothing; a shown one is always answered. `<<` and `>>` move to the window `change_page` names, and "Готово" moves to `Done`; these three keep the record. A tag button stores its tag, the delete button clears it, a radio item stores its currency and becomes the checked item, and the checkbox toggles negotiability; these keep the window. |
| Wizard.Receive | tgbot/handlers/sell.py:309-371 | A refused or unhandled message changes nothing. The text windows ignore anything but text. The title, description, price and contact windows accept a text exactly when their validator passes it, store it (the price as its parsed number) and advance exactly one window; a text their validator refuses gets the `Invalid` reply. The photo window accepts exactly photos, collects the largest size and stays, and refuses any other message. Tags and `Done` take no messages. |
| Wizard.StartConsistent | tgbot/handlers/sell.py:258-259 | The started dialog satisfies the record invariant. |
| Wizard.StepPreservesConsistent | tgbot/handlers/sell.py:309-390 | Every event keeps the invariant: stored texts passed their checks and table values come from the tables. A photo list is non-empty and `quantity` is unset. The shown symbol is the checked radio item's. |
| Wizard.PressPreservesConsistent | tgbot/handlers/sell.py:272-306 | Every button keeps the record invariant. |
| Wizard.CurrencyItemConsistent | tgbot/handlers/sell.py:177-179 | A radio item keeps the record invariant: the shown symbol stays the checked item's. |
| Wizard.ReceivePreservesConsistent | tgbot/handlers/sell.py:309-371 | Every message keeps the record invariant. |
| Wizard.ReceiveTextConsistent | tgbot/handlers/sell.py:310-365 | Every message to a text window keeps the record invariant. |
| Wizard.ReceivePhotoConsistent | tgbot/handlers/sell.py:366-371 | Every message to the photo window keeps the record invariant. |
| Wizard.RunPreservesConsistent | tgbot/handlers/sell.py:309-390 | Any sequence of events keeps the record invariant. |
| Wizard.ConsistentIsShowable | tgbot/handlers/sell.py:55-60 | The preview of a consistent record never fails on the contact. |
| Wizard.ReachablePreview | tgbot/handlers/sell.py:55-126 | In every dialog reached from the start, the contact cell renders and the price line's currency is the checked radio item's symbol. The photo instruction never uses its edit wording. |
| Wizard.OnlyDoneButtonLeavesRing | tgbot/handlers/sell.py:291-306 | From a ring window only the "Готово" button reaches `Done`. |
| Wizard.DoneIsFinal | tgbot/handlers/sell.py:384-388 | In `Done`, every event is ignored. |
| Wizard.TagChangesOnlyByDeletion | tgbot/handlers/sell.py:372-383 | Once a tag is set, the only event that changes it is the delete button, which clears it. |
| Wizard.TagButtonSetsTag | tgbot/handlers/sell.py:272-288 | With no tag, a tag button stores that button's tag and stays in the tag window. |
| Wizard.PhotosAccumulate | tgbot/handlers/sell.py:247-254 | In the photo window, any number of photos is appended in order. The window does not change, and neither does any other key. |
| Wizard.SixthPhotoAccepted | tgbot/handlers/sell.py:120-122 | Six photos in a row are all kept, despite the maximum of 5 in the instruction. |
| Wizard.ContactAccepted | tgbot/handlers/sell.py:355-365 | In the contact window, a number the library accepts is stored as typed and the dialog moves to the photo window. |
| Wizard.SampleSession | tgbot/handlers/sell.py:309-390 | Start, the title "Bike", a 2000-character description (refused in place), a description, the price 15.5, the phone 380991234567, one photo, `>>`, the sport tag and "Готово" lead to `Done` with the expected record. This holds for any `float()` that reads "15.5" as 15.5 and any phone library that accepts +380991234567. |
| Wizard.SamplePreview | tgbot/handlers/sell.py:55-79 | That record's preview shows `15.5 ₴ (цена окончательна)`, one photo and `#продам, #спорт`. |

## Findings

| source | as written | input that shows it | evidently intended | confidence | as-written member | corrected member |
|---|---|---|---|---|---|---|
| tgbot/handlers/sell.py:57 | When the price's float is whole, `int()` is applied to the stored price text itself | The price text "10.0" passes `positive_float`, but `int("10.0")` raises `ValueError`, so every later preview of the ad fails until a new price is accepted | Show the whole number 10 | high; not executed | Preview.PriceShownAsWritten, Preview.WholeDecimalPriceBreaksPreview | Preview.PriceShown, Preview.PriceShownAgrees |

## Left out

- The dialog library's own machinery (`Dialog`, `Window`, widget construction, `ShowMode`, `message.answer`, `print`) is not modelled. Its routing is modelled only as far as the assumptions above.
- `invalid_input` and the "invalid picture" answer are not modelled, because they only send messages. Their texts also disagree with the validators (128 against 64, 1024 against 128). The model reports such a case as an `Invalid` reply.
- The "back to main" `Start` button leaves this dialog, so it is not modelled. The "preview" `SwitchTo` targets a state without a window here, so it is not modelled either.
- Python's `float()` is the parameter `parseFloat` returning a real, because floating point is out of scope. `nan` and `inf`, and binary rounding near 0.01, are not modelled.
- Preview.PriceCell: the preview shows a whole price through the corrected `PriceShown`, not through the `int()` of the stored text that the source applies. For a stored text such as "10.0", "5.00" or "1e3" the source's preview raises instead (see Findings); the model does not reproduce that failure.
- Wizard.ReachablePreview: states that the contact cell of every reachable preview renders, not the whole preview. In the source, a whole price typed with a decimal point or an exponent makes every later preview fail until a new price is accepted.
- The printed digits of a fractional price (Python's `str(float)`) are not modelled, because that is floating-point formatting. The cell holds the parsed real.
- Preview.PriceCell: a stored price of zero would show the dash followed by the currency and note in the source, but shows the plain dash here. Validation never stores such a price.
- The `phonenumbers` functions (`parse`, `is_possible_number`, `is_valid_number`, `format_number`) are opaque parameters, because they are a foreign library.
- Validators.ValidatePhone: a number typed in national format (leading `0`) reaches the library as `+0…`, which has no country calling code, so the real library always refuses it. With the library abstract, the model does not show this.
- The HTML markup (`hunderline`, `hbold`, `hitalic`, `hcode`) and the Russian instruction wording are abstracted to flags and value cells, because they are presentation.
- `make_tags` is modelled for the `"sell"` and `"buy"` boards only, the two values the code knows. An unknown board would print `None`.
- A `tag` key holding `None` and a missing `tag` key are one state in the model, because every reader of the key treats them alike.
- A click on a stale, hidden widget is not modelled, because the library replaces the keyboard on every update.
- The bot's setup, configuration loading, database models and admin filter are not part of this model. They only register, load or declare things.

=== FILE: preview.dfy ===
/**
 * `get_sell_text` and `get_active_section`: the live preview shown above every window of the dialog,
 * rendered as a structure. The HTML markup around labels and values (underline, bold, italic, code)
 * and the exact prompt wording are abstracted to flags.
 */
module Preview {
  import opened Wrappers
  import opened States
  import opened Validators
  import opened WidgetData

  /** The negotiability notes appended to a set price. */
  const NegotiableNote: string := "(торг уместен)"
  const FinalNote: string := "(цена окончательна)"

  /** `get_active_section`: the short section name shown on the page button; `None` outside the ring. */
  function ActiveSection(s: Sell): (r: Option<string>)
    ensures r.Some? <==> OnRing(s)
  {
    match s
    case Title => Some("Заголовок")
    case Description => Some("Описание")
    case Price => Some("Цена")
    case Contact => Some("Контакты")
    case Photo => Some("Картинка")
    case Tags => Some("Теги")
    case Done => None
  }

  /** Each ring window has its own page name, so the page button tells the user where they are. */
  lemma ActiveSectionInjective(a: Sell, b: Sell)
    requires OnRing(a) && OnRing(b) && a != b
    ensures ActiveSection(a) != ActiveSection(b)
  {
  }

  /** The label of each preview line. */
  function RowLabel(s: Sell): string
    requires OnRing(s)
  {
    match s
    case Title => "Заголовок товара или услуг"
    case Description => "Описание товара или услуг"
    case Price => "Цена"
    case Contact => "Контактные данные"
    case Photo => "Фото (опционально)"
    case Tags => "Теги"
  }

  /** How a price is printed: a whole number without a fractional part, any other number as it is. */
  datatype Number = Whole(n: int) | Fraction(x: real)

  function NumberValue(n: Number): real {
    match n
    case Whole(k) => k as real
    case Fraction(x) => x
  }

  predicate IsWhole(x: real) {
    x.Floor as real == x
  }

  /**
   * The price display as written: when the parsed price is whole, Python's `int()` is applied to the
   * stored text. `parseInt` stands for `int()`, `None` for the `ValueError` it raises, which aborts the
   * whole preview. An `int()` result of zero is falsy, so the float is shown instead.
   */
  function PriceShownAsWritten(text: string, parseFloat: string -> Option<real>, parseInt: string -> Option<int>): (r: Option<Number>)
    requires PositiveFloat(text, parseFloat).Pass?
    ensures r.None? <==> IsWhole(parseFloat(text).value) && parseInt(text).None?
    ensures !IsWhole(parseFloat(text).value) ==> r == Some(Fraction(parseFloat(text).value))
  {
    var x := parseFloat(text).value;
    if IsWhole(x) then
      match parseInt(text)
      case None => None
      case Some(n) => if n != 0 then Some(Whole(n)) else Some(Fraction(x))
    else Some(Fraction(x))
  }

  /** "10.0" passes the price check, but `int("10.0")` raises, so the preview cannot be shown for that price. */
  lemma WholeDecimalPriceBreaksPreview(parseFloat: string -> Option<real>, parseInt: string -> Option<int>)
    requires parseFloat("10.0") == Some(10.0)
    requires parseInt("10.0") == None
    ensures PositiveFloat("10.0", parseFloat).Pass?
    ensures PriceShownAsWritten("10.0", parseFloat, parseInt) == None
  {
    assert 10.0.Floor == 10;
  }

  /** The intended price display: the whole number when the price is whole, the number itself otherwise. It never fails. */
  function PriceShown(x: real): (r: Number)
    ensures NumberValue(r) == x
    ensures r.Whole? <==> IsWhole(x)
  {
    if IsWhole(x) then Whole(x.Floor) else Fraction(x)
  }

  /** Wherever `int()` of the text succeeds with the whole value, the display as written agrees with the intended one. */
  lemma PriceShownAgrees(text: string, parseFloat: string -> Option<real>, parseInt: string -> Option<int>)
    requires PositiveFloat(text, parseFloat).Pass?
    requires IsWhole(parseFloat(text).value) ==> parseInt(text) == Some(parseFloat(text).value.Floor)
    ensures PriceShownAsWritten(text, parseFloat, parseInt) == Some(PriceShown(parseFloat(text).value))
  {
  }

  /** The value part of a preview line. */
  datatype Cell =
    | Placeholder                                        // the dash "➖" of a field with no data
    | Text(text: string)                                 // title (bold), description (italic), hashtags (plain)
    | Amount(shown: Number, currency: string, note: string) // price, currency symbol, negotiability note
    | Phone(formatted: string)                           // the humanised contact number
    | Count(photos: nat)                                 // "<n> шт"

  /** One numbered line of the preview; `underlined` marks the label of the active section. */
  datatype Row = Row(section: Sell, heading: string, underlined: bool, cell: Cell)

  /** The instruction above the lines: which field it speaks about, and whether it is the edit wording. */
  datatype Prompt = Prompt(topic: Sell, edit: bool)

  /** What `get_sell_text` returns: the instruction, the six lines, and the page-button text. */
  datatype Screen = Screen(prompt: Prompt, rows: seq<Row>, page: Option<string>)

  /** `humanize_phone_number` can be applied to the stored contact, as the preview does whenever one is set. */
  predicate ContactShowable(d: Session, lib: PhoneLib) {
    Truthy(d.contact) ==> lib.parse(WithPlus(d.contact.value)).Some?
  }

  function TitleCell(d: Session): Cell {
    if Truthy(d.title) then Text(d.title.value) else Placeholder
  }

  function DescriptionCell(d: Session): Cell {
    if Truthy(d.description) then Text(d.description.value) else Placeholder
  }

  function PriceCell(d: Session): Cell {
    match d.price
    case Some(x) =>
      if x != 0.0 then Amount(PriceShown(x), DisplayCurrency(d), if d.negotiable then NegotiableNote else FinalNote)
      else Placeholder
    case None => Placeholder
  }

  function ContactCell(d: Session, lib: PhoneLib): Cell
    requires ContactShowable(d, lib)
  {
    if Truthy(d.contact) && HumanizePhone(d.contact.value, lib) != "" then Phone(HumanizePhone(d.contact.value, lib))
    else Placeholder
  }

  function PhotoCell(d: Session): Cell {
    if |Photos(d)| > 0 then Count(|Photos(d)|) else Placeholder
  }

  function TagsCell(d: Session): Cell {
    Text(MakeTags(d.tag, SellBoard))
  }

  function CellOf(s: Sell, d: Session, lib: PhoneLib): Cell
    requires OnRing(s) && ContactShowable(d, lib)
  {
    match s
    case Title => TitleCell(d)
    case Description => DescriptionCell(d)
    case Price => PriceCell(d)
    case Contact => ContactCell(d, lib)
    case Photo => PhotoCell(d)
    case Tags => TagsCell(d)
  }

  /** The field the instruction speaks about: the `match state` in `get_sell_text`, whose default arm is the tag one. */
  function PromptTopic(state: Sell): Sell {
    match state
    case Title => Title
    case Description => Description
    case Price => Price
    case Contact => Contact
    case Photo => Photo
    case _ => Tags
  }

  /** Whether the user has already entered the field `s`, as the preview lines show it. */
  predicate Entered(s: Sell, d: Session) {
    match s
    case Title => Truthy(d.title)
    case Description => Truthy(d.description)
    case Price => d.price.Some?
    case Contact => Truthy(d.contact)
    case Photo => |Photos(d)| > 0
    case Tags => Truthy(d.tag)
    case Done => false
  }

  /** The key the instruction actually consults: the photo arm reads `quantity`, every other arm its own field. */
  predicate EditWording(topic: Sell, d: Session) {
    if topic == Photo then d.quantity else Entered(topic, d)
  }

  /** `get_sell_text` for the dialog in `state` with record `d`. */
  function Render(state: Sell, d: Session, lib: PhoneLib): (r: Screen)
    requires ContactShowable(d, lib)
    ensures |r.rows| == RingSize
    ensures forall i :: 0 <= i < |r.rows| ==> r.rows[i].section == Windows[i] && r.rows[i].heading == RowLabel(Windows[i])
    ensures forall i :: 0 <= i < |r.rows| ==> (r.rows[i].underlined <==> r.rows[i].section == state)
    ensures r.page == ActiveSection(state)
    ensures OnRing(state) && state != Tags ==> r.prompt.topic == state
    ensures !OnRing(state) || state == Tags ==> r.prompt.topic == Tags
    ensures r.prompt.edit <==> EditWording(r.prompt.topic, d)
  {
    var rows := seq(RingSize, i requires 0 <= i < RingSize =>
      var s := Windows[i];
      Row(s, RowLabel(s), s == state, CellOf(s, d, lib)));
    var topic := PromptTopic(state);
    Screen(Prompt(topic, EditWording(topic, d)), rows, ActiveSection(state))
  }

  /** The fixed texts of the screen: the six line labels, and the page names of the ring windows. */
  lemma ScreenTexts(state: Sell, d: Session, lib: PhoneLib)
    requires ContactShowable(d, lib)
    ensures Render(state, d, lib).rows[0].heading == "Заголовок товара или услуг"
    ensures Render(state, d, lib).rows[1].heading == "Описание товара или услуг"
    ensures Render(state, d, lib).rows[2].heading == "Цена"
    ensures Render(state, d, lib).rows[3].heading == "Контактные данные"
    ensures Render(state, d, lib).rows[4].heading == "Фото (опционально)"
    ensures Render(state, d, lib).rows[5].heading == "Теги"
    ensures Render(Title, d, lib).page == Some("Заголовок")
    ensures Render(Description, d, lib).page == Some("Описание")
    ensures Render(Price, d, lib).page == Some("Цена")
    ensures Render(Contact, d, lib).page == Some("Контакты")
    ensures Render(Photo, d, lib).page == Some("Картинка")
    ensures Render(Tags, d, lib).page == Some("Теги")
  {
  }

  /** Exactly the line of the active section is underlined; in `Done`, none is. */
  lemma UnderlineMarksActiveSection(state: Sell, d: Session, lib: PhoneLib, i: nat)
    requires ContactShowable(d, lib) && i < RingSize
    ensures Render(state, d, lib).rows[i].underlined <==> OnRing(state) && i == Index(state)
  {
  }

  /** The title, description, contact and photo lines show the dash exactly when their data is missing, and the data otherwise. */
  lemma PlaceholdersMarkMissingData(state: Sell, d: Session, lib: PhoneLib)
    requires ContactShowable(d, lib)
    ensures Render(state, d, lib).rows[0].cell.Placeholder? <==> !Entered(Title, d)
    ensures Entered(Title, d) ==> Render(state, d, lib).rows[0].cell == Text(d.title.value)
    ensures Render(state, d, lib).rows[1].cell.Placeholder? <==> !Entered(Description, d)
    ensures Entered(Description, d) ==> Render(state, d, lib).rows[1].cell == Text(d.description.value)
    ensures !Entered(Contact, d) ==> Render(state, d, lib).rows[3].cell.Placeholder?
    ensures Entered(Contact, d) && HumanizePhone(d.contact.value, lib) != "" ==>
      Render(state, d, lib).rows[3].cell == Phone(HumanizePhone(d.contact.value, lib))
    ensures Render(state, d, lib).rows[4].cell.Placeholder? <==> !Entered(Photo, d)
    ensures Entered(Photo, d) ==> Render(state, d, lib).rows[4].cell == Count(|Photos(d)|)
  {
  }

  /** The currency and the negotiability note appear only with a set price, which shows as a whole number exactly when it is whole; the currency defaults to the hryvnia sign. */
  lemma PriceLineAnnotation(state: Sell, d: Session, lib: PhoneLib)
    requires ContactShowable(d, lib)
    ensures Render(state, d, lib).rows[2].cell.Amount? ==> d.price.Some?
    ensures d.price.Some? && d.price.value != 0.0 ==> Render(state, d, lib).rows[2].cell.Amount?
    ensures Render(state, d, lib).rows[2].cell.Amount? ==>
      var c := Render(state, d, lib).rows[2].cell;
      c.shown == PriceShown(d.price.value)
      && NumberValue(c.shown) == d.price.value
      && (c.shown.Whole? <==> IsWhole(d.price.value))
      && (d.currency.None? ==> c.currency == DefaultSymbol)
      && (d.currency.Some? ==> c.currency == d.currency.value)
      && (d.negotiable ==> c.note == NegotiableNote)
      && (!d.negotiable ==> c.note == FinalNote)
  {
  }

  /** The tag line is the sell hashtag, followed by the chosen tag when there is one. */
  lemma TagLineShowsTag(state: Sell, d: Session, lib: PhoneLib)
    requires ContactShowable(d, lib)
    ensures Render(state, d, lib).rows[5].cell == Text(MakeTags(d.tag, SellBoard))
    ensures BaseTag(SellBoard) <= Render(state, d, lib).rows[5].cell.text
    ensures ExtraTag(Render(state, d, lib).rows[5].cell.text, SellBoard) == if Truthy(d.tag) then d.tag else None
  {
  }

  /** The instruction uses the edit wording exactly when the active field is entered, except in the photo window. */
  lemma PromptFollowsEntry(state: Sell, d: Session, lib: PhoneLib)
    requires ContactShowable(d, lib) && OnRing(state) && state != Photo
    ensures Render(state, d, lib).prompt.edit <==> Entered(state, d)
  {
  }

  /** In the photo window the wording depends only on `quantity`, not on the photos collected. */
  lemma PhotoPromptIgnoresPhotos(d: Session, lib: PhoneLib)
    requires ContactShowable(d, lib)
    ensures Render(Photo, d, lib).prompt.edit <==> d.quantity
  {
  }
}

=== FILE: states.dfy ===
/** The states of the ad-creation dialog and how its arrow buttons and text inputs move between them. */
module States {

  /** The `Sell` states that own a window of the dialog. */
  datatype Sell = Title | Description | Price | Contact | Photo | Tags | Done

  /** The dialog's windows, in the order it declares them; `next()` and `back()` follow this order. */
  const Windows: seq<Sell> := [Title, Description, Price, Contact, Photo, Tags, Done]

  /** The windows that carry the arrow buttons: all but `Done`. They form the navigation ring. */
  const RingSize: nat := 6

  /** Position of a state's window in the dialog. */
  function Index(s: Sell): (i: nat)
    ensures i < |Windows| && Windows[i] == s
  {
    match s
    case Title => 0
    case Description => 1
    case Price => 2
    case Contact => 3
    case Photo => 4
    case Tags => 5
    case Done => 6
  }

  /** A window wired to `change_page`: every window but the empty `Done` one. */
  predicate OnRing(s: Sell)
    ensures OnRing(s) <==> Index(s) < RingSize
  {
    s != Done
  }

  /** What invoked `change_page`: the `<<` button, the `>>` button, or a text input that accepted its text. */
  datatype Action = Left | Right | Input

  /** The dialog's `next()`: the window declared after `s`. */
  function Next(s: Sell): (r: Sell)
    requires s != Done
    ensures Index(r) == Index(s) + 1
  {
    Windows[Index(s) + 1]
  }

  /** The dialog's `back()`: the window declared before `s`. */
  function Back(s: Sell): (r: Sell)
    requires s != Title
    ensures Index(r) + 1 == Index(s)
  {
    Windows[Index(s) - 1]
  }

  /** `change_page`: the state the dialog moves to when `a` fires in state `s`. */
  function ChangePage(s: Sell, a: Action): (r: Sell)
    requires OnRing(s)
    ensures OnRing(r)
    ensures a == Left ==> if s == Title then r == Tags else Index(r) + 1 == Index(s)
    ensures a == Right ==> if s == Tags then r == Title else Index(r) == Index(s) + 1
    ensures a == Input ==> if s == Tags then r == s else Index(r) == Index(s) + 1
  {
    match a
    case Left => if s == Title then Tags else Back(s)
    case Right => if s == Tags then Title else Next(s)
    case Input => if s == Tags then s else Next(s)
  }

  /** The arrows turn the six ring windows like a dial: `>>` adds one position modulo six, `<<` subtracts one. */
  lemma ArrowsAreRing(s: Sell)
    requires OnRing(s)
    ensures Index(ChangePage(s, Right)) == (Index(s) + 1) % RingSize
    ensures Index(ChangePage(s, Left)) == (Index(s) + RingSize - 1) % RingSize
  {
  }

  /** On the ring, `<<` undoes `>>` and `>>` undoes `<<`. */
  lemma ArrowsAreInverse(s: Sell)
    requires OnRing(s)
    ensures ChangePage(ChangePage(s, Right), Left) == s
    ensures ChangePage(ChangePage(s, Left), Right) == s
  {
  }

  /** The state reached by pressing `>>` `n` times from `s`. */
  function PressRight(s: Sell, n: nat): Sell
    requires OnRing(s)
    ensures OnRing(PressRight(s, n))
  {
    if n == 0 then s else ChangePage(PressRight(s, n - 1), Right)
  }

  /** The state reached by pressing `<<` `n` times from `s`. */
  function PressLeft(s: Sell, n: nat): Sell
    requires OnRing(s)
    ensures OnRing(PressLeft(s, n))
  {
    if n == 0 then s else ChangePage(PressLeft(s, n - 1), Left)
  }

  /** `n` presses of `>>` advance `n` positions around the ring of six windows. */
  lemma {:induction false} PressRightAdvances(s: Sell, n: nat)
    requires OnRing(s)
    ensures Index(PressRight(s, n)) == (Index(s) + n) % RingSize
  {
    if n > 0 {
      PressRightAdvances(s, n - 1);
      ArrowsAreRing(PressRight(s, n - 1));
    }
  }

  /** `n` presses of `<<` go back `n` positions around the ring of six windows. */
  lemma {:induction false} PressLeftRetreats(s: Sell, n: nat)
    requires OnRing(s)
    ensures (Index(PressLeft(s, n)) + n) % RingSize == Index(s)
  {
    if n > 0 {
      PressLeftRetreats(s, n - 1);
      ArrowsAreRing(PressLeft(s, n - 1));
    }
  }

  /** A whole number of turns (a multiple of six presses of either arrow) returns to the starting window. */
  lemma WholeTurns(s: Sell, n: nat)
    requires OnRing(s) && n % RingSize == 0
    ensures PressRight(s, n) == s
    ensures PressLeft(s, n) == s
  {
    PressRightAdvances(s, n);
    PressLeftRetreats(s, n);
    WholeTurnsModulo(Index(s), n);
    WholeTurnsModulo(Index(PressLeft(s, n)), n);
    SameIndexSameState(PressRight(s, n), s);
    SameIndexSameState(PressLeft(s, n), s);
  }

  /** Adding a multiple of six to a ring position leaves it unchanged modulo six. */
  lemma WholeTurnsModulo(i: nat, n: nat)
    requires i < RingSize && n % RingSize == 0
    ensures (i + n) % RingSize == i
  {
  }

  /** Distinct states sit at distinct window positions. */
  lemma SameIndexSameState(a: Sell, b: Sell)
    requires Index(a) == Index(b)
    ensures a == b
  {
  }
}

=== FILE: validators.dfy ===
/** The restrictions the dialog's text inputs apply before they store what the user typed. */
module Validators {
  import opened Wrappers

  /** Why a validator raised `ValueError`. */
  datatype Rejection = TooLong | NotANumber | NotAboveMinimum | BadPhone

  /** The length `fixed_size_64` actually enforces (the name and the error text say 64). */
  const TitleLimit: nat := 128

  /** The length `fixed_size_1024` enforces. */
  const DescriptionLimit: nat := 1024

  /** The price must lie strictly above this value. */
  const MinPrice: real := 0.01

  /** `fixed_size_64`: the title check. Lengths count characters. */
  function FixedSize64(text: string): (r: Outcome<Rejection>)
    ensures r.Pass? <==> |text| <= TitleLimit
    ensures r.Fail? ==> r.error == TooLong
  {
    if |text| > TitleLimit then Fail(TooLong) else Pass
  }

  /** `fixed_size_1024`: the description check. */
  function FixedSize1024(text: string): (r: Outcome<Rejection>)
    ensures r.Pass? <==> |text| <= DescriptionLimit
    ensures r.Fail? ==> r.error == TooLong
  {
    if |text| > DescriptionLimit then Fail(TooLong) else Pass
  }

  /** A title longer than its advertised 64 characters but within 128 passes the title check. */
  lemma TitleCheckAllowsPast64(text: string)
    requires 64 < |text| <= TitleLimit
    ensures FixedSize64(text).Pass?
  {
  }

  /** Every text the title check accepts, the description check accepts too. */
  lemma TitleCheckStricter(text: string)
    ensures FixedSize64(text).Pass? ==> FixedSize1024(text).Pass?
  {
  }

  /** `positive_float`: `parse` stands for Python's `float()`, `None` for the `ValueError` it raises. */
  function PositiveFloat(text: string, parse: string -> Option<real>): (r: Outcome<Rejection>)
    ensures r.Pass? <==> parse(text).Some? && parse(text).value > MinPrice
    ensures parse(text).None? ==> r == Fail(NotANumber)
  {
    match parse(text)
    case None => Fail(NotANumber)
    case Some(x) => if !(x > MinPrice) then Fail(NotAboveMinimum) else Pass
  }

  /** The minimum itself is refused: the comparison is strict. */
  lemma MinimumPriceRejected(text: string, parse: string -> Option<real>)
    requires parse(text) == Some(MinPrice)
    ensures PositiveFloat(text, parse) == Fail(NotAboveMinimum)
  {
  }

  predicate StartsWithPlus(s: string) {
    |s| > 0 && s[0] == '+'
  }

  /** The leading-`+` normalisation shared by `validate_phone_number` and `humanize_phone_number`. */
  function WithPlus(s: string): (r: string)
    ensures StartsWithPlus(r)
    ensures StartsWithPlus(s) ==> r == s
    ensures !StartsWithPlus(s) ==> r[1..] == s
  {
    if StartsWithPlus(s) then s else "+" + s
  }

  /** Normalising twice is normalising once. */
  lemma WithPlusIdempotent(s: string)
    ensures WithPlus(WithPlus(s)) == WithPlus(s)
  {
  }

  /** Typing the `+` or leaving it out gives the same normalised number. */
  lemma WithPlusIgnoresPrefix(s: string)
    requires !StartsWithPlus(s)
    ensures WithPlus("+" + s) == WithPlus(s)
  {
  }

  /** A parsed phone number, as the `phonenumbers` library represents it; its structure is not modelled. */
  datatype PhoneNumber = PhoneNumber(national: string)

  /** The `phonenumbers` functions the core calls; `parse` gives `None` where the library raises `NumberParseException`. */
  datatype PhoneLib = PhoneLib(
    parse: string -> Option<PhoneNumber>,
    isPossible: PhoneNumber -> bool,
    isValid: PhoneNumber -> bool,
    format: PhoneNumber -> string)

  /** The library accepts the normalised text `s`: it parses, and is both possible and valid. */
  predicate PhoneAccepted(lib: PhoneLib, s: string) {
    lib.parse(s).Some? && lib.isPossible(lib.parse(s).value) && lib.isValid(lib.parse(s).value)
  }

  /** `validate_phone_number`: a possible number that is not valid, an impossible one, and gibberish all fail. */
  function ValidatePhone(text: string, lib: PhoneLib): (r: Outcome<Rejection>)
    ensures r.Pass? <==> PhoneAccepted(lib, WithPlus(text))
    ensures r.Fail? ==> r.error == BadPhone
  {
    var normalised := WithPlus(text);
    match lib.parse(normalised)
    case None => Fail(BadPhone)
    case Some(n) =>
      if lib.isPossible(n) then
        if !lib.isValid(n) then Fail(BadPhone) else Pass
      else Fail(BadPhone)
  }

  /** Whether the user typed the leading `+` never changes the verdict. */
  lemma ValidatePhoneIgnoresPrefix(s: string, lib: PhoneLib)
    requires !StartsWithPlus(s)
    ensures ValidatePhone("+" + s, lib) == ValidatePhone(s, lib)
  {
  }

  /** `humanize_phone_number`: the international format of the normalised number; the parse must succeed. */
  function HumanizePhone(text: string, lib: PhoneLib): (r: string)
    requires lib.parse(WithPlus(text)).Some?
    ensures ValidatePhone(text, lib).Pass? ==>
      exists n :: lib.parse(WithPlus(text)) == Some(n) && lib.isPossible(n) && lib.isValid(n) && r == lib.format(n)
  {
    lib.format(lib.parse(WithPlus(text)).value)
  }

  /** A number that passed validation parses again when it is humanised, so showing it never raises. */
  lemma HumanizeAfterValidate(s: string, lib: PhoneLib)
    requires ValidatePhone(s, lib).Pass?
    ensures lib.parse(WithPlus(s)).Some?
  {
  }

  /** Whether the user typed the leading `+` makes no difference to how the number is shown. */
  lemma HumanizeIgnoresPrefix(s: string, lib: PhoneLib)
    requires !StartsWithPlus(s) && lib.parse(WithPlus(s)).Some?
    ensures lib.parse(WithPlus("+" + s)).Some?
    ensures HumanizePhone("+" + s, lib) == HumanizePhone(s, lib)
  {
    WithPlusIgnoresPrefix(s);
  }
}

=== FILE: widget_data.dfy ===
/**
 * The dialog's per-user `widget_data` record and the handlers that update it:
 * tag buttons, tag deletion, currency selection, the start-up default and the photo collector.
 */
module WidgetData {
  import opened Wrappers

  /**
   * One entry per key the dialog reads. Text inputs store the text they accepted;
   * `price` holds the parsed value of the accepted price text.
   * `checkedCurrency` is the currency radio's own selection, `currency` the symbol `currency_selected` writes.
   * `quantity` is the key the photo prompt consults; no handler writes it.
   */
  datatype Session = Session(
    title: Option<string>,
    description: Option<string>,
    price: Option<real>,
    contact: Option<string>,
    negotiable: bool,
    checkedCurrency: Option<string>,
    currency: Option<string>,
    tag: Option<string>,
    photos: Option<seq<string>>,
    quantity: bool)

  /** The record a dialog starts with: every key absent, the negotiable checkbox at its default `False`. */
  const Empty: Session := Session(None, None, None, None, false, None, None, None, None, false)

  /** Python truthiness of an optional text: present and non-empty. */
  predicate Truthy(o: Option<string>) {
    o.Some? && o.value != ""
  }

  // ----- tags -----

  /** The ten tag buttons' ids, in the order the tag window shows them. */
  const TagButtons: seq<string> := ["childs_world", "real_estate", "transport", "work", "animals",
                                     "house_garden", "electronics", "services", "fashion_style", "sport"]

  /** The tag stored for each button id. */
  const TagNames: map<string, string> := map[
    "childs_world" := "детский_мир",
    "real_estate" := "недвижимость",
    "transport" := "транспорт",
    "work" := "работа",
    "animals" := "животные",
    "house_garden" := "дом_и_сад",
    "electronics" := "электроника",
    "services" := "услуги",
    "fashion_style" := "мода_и_стиль",
    "sport" := "спорт"]

  /** `tags.get(id)` in `add_tag`: the tag for a known button, `None` otherwise. */
  function TagFor(id: string): (r: Option<string>)
    ensures r.Some? <==> id in TagButtons
    ensures r.Some? ==> r.value in TagNames.Values && r.value != ""
  {
    if id in TagNames then Some(TagNames[id]) else None
  }

  /** Different buttons store different tags, so the stored tag tells which button was pressed. */
  lemma TagForInjective(a: string, b: string)
    requires a in TagButtons && b in TagButtons && a != b
    ensures TagFor(a) != TagFor(b)
  {
  }

  /** `add_tag`: the tag entry is overwritten with the button's tag, whatever it held before. */
  function AddTag(d: Session, id: string): (r: Session)
    ensures r.tag == TagFor(id)
    ensures r == d.(tag := r.tag)
  {
    d.(tag := TagFor(id))
  }

  /** `delete_tag`: the tag entry is removed. */
  function DeleteTag(d: Session): (r: Session)
    ensures r.tag.None?
    ensures r == d.(tag := r.tag)
  {
    d.(tag := None)
  }

  /** `tag_is_empty`: no tag, or a tag entry holding `None`. Deleting the tag then changes nothing, and the tag line is the bare board hashtag. */
  function TagIsEmpty(d: Session): (r: bool)
    ensures r <==> DeleteTag(d) == d
    ensures r ==> MakeTags(d.tag, SellBoard) == BaseTag(SellBoard)
  {
    d.tag.None?
  }

  /** `tag_exist`: a tag is stored, so deleting it changes the record. */
  function TagExist(d: Session): (r: bool)
    ensures r <==> DeleteTag(d) != d
  {
    d.tag.Some?
  }

  /** Exactly one of the two gating predicates holds, so either the tag buttons or the delete button show. */
  lemma TagPredicatesComplement(d: Session)
    ensures TagIsEmpty(d) <==> !TagExist(d)
  {
  }

  /** Adding then deleting a tag leaves the record as deleting alone would. */
  lemma DeleteUndoesAdd(d: Session, id: string)
    ensures DeleteTag(AddTag(d, id)) == DeleteTag(d)
  {
  }

  /** The last tag button wins; an earlier one leaves no trace. */
  lemma AddTagOverwrites(d: Session, a: string, b: string)
    ensures AddTag(AddTag(d, a), b) == AddTag(d, b)
  {
  }

  // ----- currency -----

  /** The currency codes `currency_selected` knows, with their symbols. */
  const Currencies: map<string, string> := map["USD" := "$", "EUR" := "€", "RUB" := "₽", "UAH" := "₴"]

  /** The radio's items as `get_currency_data` lists them: (symbol, code). */
  const RadioItems: seq<(string, string)> := [("$", "USD"), ("€", "EUR"), ("₽", "RUB"), ("₴", "UAH")]

  /** The code the radio is set to when the dialog starts. */
  const DefaultCode: string := "UAH"

  /** The symbol the preview shows when no currency has been selected. */
  const DefaultSymbol: string := "₴"

  /** `currency_selected`: stores the symbol of a known code (an unknown one raises `KeyError`). */
  function CurrencySelected(d: Session, code: string): (r: Session)
    requires code in Currencies
    ensures r.currency.Some? && r.currency.value in Currencies.Values
    ensures r == d.(currency := r.currency)
    ensures forall other :: other in Currencies && other != code ==> r.currency != Some(Currencies[other])
  {
    d.(currency := Some(Currencies[code]))
  }

  /** The radio offers exactly the codes `currency_selected` knows, each labelled with the symbol it stores. */
  lemma RadioMatchesCurrencies()
    ensures forall i :: 0 <= i < |RadioItems| ==> RadioItems[i].1 in Currencies && Currencies[RadioItems[i].1] == RadioItems[i].0
    ensures forall code :: code in Currencies ==> exists i :: 0 <= i < |RadioItems| && RadioItems[i].1 == code
  {
    assert RadioItems[0].1 == "USD" && RadioItems[1].1 == "EUR" && RadioItems[2].1 == "RUB" && RadioItems[3].1 == "UAH";
  }

  /** `data.get('currency', '₴')`: the symbol the preview shows; with no currency chosen it is UAH's. */
  function DisplayCurrency(d: Session): (r: string)
    ensures d.currency.None? ==> DefaultCode in Currencies && r == Currencies[DefaultCode]
    ensures d.currency.Some? ==> r == d.currency.value
  {
    d.currency.GetOr(DefaultSymbol)
  }

  /** `set_default`: checks the UAH item of the currency radio; the shown symbol already agrees with it. */
  function SetDefault(d: Session): (r: Session)
    ensures r.checkedCurrency == Some(DefaultCode) && DefaultCode in Currencies
    ensures r == d.(checkedCurrency := r.checkedCurrency)
    ensures d.currency.None? ==> DisplayCurrency(r) == Currencies[DefaultCode]
  {
    d.(checkedCurrency := Some(DefaultCode))
  }

  // ----- photos -----

  /** An incoming message: text, a photo (its sizes' file ids, smallest first), or any other content. */
  datatype Message = TextMessage(text: string) | PhotoMessage(sizes: seq<string>) | OtherMessage

  /** Telegram always sends at least one size with a photo; `message.photo[-1]` relies on it. */
  predicate WellFormedMessage(m: Message) {
    m.PhotoMessage? ==> |m.sizes| > 0
  }

  /** The collected photo ids, or none when the key is absent. */
  function Photos(d: Session): seq<string> {
    d.photos.GetOr([])
  }

  /** `pic_validator`: a photo appends its largest size's id (creating the list); anything else is refused (`None`). */
  function PicValidator(d: Session, m: Message): (r: Option<Session>)
    requires WellFormedMessage(m)
    ensures r.Some? <==> m.PhotoMessage?
    ensures r.Some? ==> r.value == d.(photos := r.value.photos)
    ensures r.Some? ==> Photos(r.value) == Photos(d) + [m.sizes[|m.sizes| - 1]]
    ensures r.Some? ==> r.value.photos.Some?
  {
    match m
    case PhotoMessage(sizes) => Some(d.(photos := Some(Photos(d) + [sizes[|sizes| - 1]])))
    case _ => None
  }

  // ----- hashtags -----

  /** Where the ad is posted: `make_tags` is only ever called with `"sell"` or `"buy"`. */
  datatype Board = SellBoard | BuyBoard

  function BaseTag(where: Board): string {
    match where
    case SellBoard => "#продам"
    case BuyBoard => "#куплю"
  }

  /** The separator `make_tags` puts between the board hashtag and the chosen tag's hashtag. */
  const Separator: string := ", #"

  /** `make_tags`: the board hashtag, followed by the chosen tag as a hashtag when one is set. */
  function MakeTags(tag: Option<string>, where: Board): (r: string)
    ensures BaseTag(where) <= r
    ensures |r| == |BaseTag(where)| <==> !Truthy(tag)
    ensures Truthy(tag) ==> r[|BaseTag(where)|..] == Separator + tag.value
  {
    if Truthy(tag) then BaseTag(where) + Separator + tag.value else BaseTag(where)
  }

  /** Reads back the chosen tag from a `make_tags` line for `where`. */
  function ExtraTag(line: string, where: Board): Option<string> {
    var n := |BaseTag(where)| + |Separator|;
    if |line| > n then Some(line[n..]) else None
  }

  /** The hashtag line loses nothing: the chosen tag can be read back from it, and an empty one reads back as none. */
  lemma MakeTagsRoundTrip(tag: Option<string>, where: Board)
    ensures ExtraTag(MakeTags(tag, where), where) == if Truthy(tag) then tag else None
  {
  }
}

=== FILE: wizard.dfy ===
/**
 * The ad-creation dialog as a whole: which window handles which user event, and what the
 * handlers of that window do to the state and the record. The dialog library's routing is
 * modelled as follows: a text input handles text messages in its own window, the photo window's
 * message input handles every message, and a click reaches only buttons the current window shows.
 */
module Wizard {
  import opened Wrappers
  import opened States
  import opened Validators
  import opened WidgetData
  import opened Preview

  /** The foreign code the dialog relies on: Python's `float()` and the phone-number library. */
  datatype Externals = Externals(parseFloat: string -> Option<real>, phone: PhoneLib)

  /** The dialog of one user: its current state and its `widget_data`. */
  datatype Dialog = Dialog(state: Sell, data: Session)

  /** The inline buttons of the dialog's windows. */
  datatype Button =
    | LeftArrow                 // "<<"
    | RightArrow                // ">>"
    | DoneButton                // "Готово", a switch to `Done`
    | TagButton(id: string)     // one of the ten tag buttons
    | DeleteTagButton           // "Удалить тег"
    | CurrencyItem(code: string) // an item of the currency radio
    | NegotiableBox             // the negotiability checkbox

  datatype Event = Click(button: Button) | Send(message: Message)

  /** How the dialog answered: it updated, it reported invalid input, or no handler took the event. */
  datatype Reply = Updated | Invalid | Ignored

  datatype Turn = Turn(next: Dialog, reply: Reply)

  predicate WellFormedEvent(e: Event) {
    e.Send? ==> WellFormedMessage(e.message)
  }

  /** The dialog as `on_start` leaves it: the first window, and the UAH radio item checked. */
  function Start(): (r: Dialog)
    ensures r.state == Title
    ensures forall s :: !Entered(s, r.data)
    ensures !r.data.negotiable && !r.data.quantity
    ensures r.data.checkedCurrency == Some(DefaultCode) && DisplayCurrency(r.data) == Currencies[DefaultCode]
  {
    Dialog(Title, SetDefault(Empty))
  }

  /** Whether the current window shows button `b`, including the `when=` gating of the tag window. */
  function Shows(w: Dialog, b: Button): (r: bool)
    ensures !OnRing(w.state) ==> !r
    ensures OnRing(w.state) && (b.LeftArrow? || b.RightArrow? || b.DoneButton?) ==> r
    ensures r && (b.TagButton? || b.DeleteTagButton?) ==> w.state == Tags
    ensures r && (b.CurrencyItem? || b.NegotiableBox?) ==> w.state == Price
    ensures w.state == Tags && b.TagButton? && b.id in TagButtons ==> (r <==> TagIsEmpty(w.data))
    ensures w.state == Tags && b.DeleteTagButton? ==> (r <==> TagExist(w.data))
    ensures w.state == Price && b.CurrencyItem? ==> (r <==> b.code in Currencies)
    ensures b.NegotiableBox? ==> (r <==> w.state == Price)
    ensures b.TagButton? && b.id !in TagButtons ==> !r
  {
    match b
    case LeftArrow => OnRing(w.state)
    case RightArrow => OnRing(w.state)
    case DoneButton => OnRing(w.state)
    case TagButton(id) => w.state == Tags && TagIsEmpty(w.data) && id in TagButtons
    case DeleteTagButton => w.state == Tags && TagExist(w.data)
    case CurrencyItem(code) => w.state == Price && code in Currencies
    case NegotiableBox => w.state == Price
  }

  /** A click on `b`: the arrows run `change_page`, the tag window's buttons `add_tag` and `delete_tag`, the radio `currency_selected`. */
  function Press(w: Dialog, b: Button): (r: Turn)
    ensures !Shows(w, b) ==> r == Turn(w, Ignored)
    ensures Shows(w, b) ==> r.reply == Updated
    ensures b.LeftArrow? || b.RightArrow? || b.DoneButton? ==> r.next.data == w.data
    ensures !(b.LeftArrow? || b.RightArrow? || b.DoneButton?) ==> r.next.state == w.state
    ensures Shows(w, b) && b.LeftArrow? ==> r.next.state == ChangePage(w.state, Left)
    ensures Shows(w, b) && b.RightArrow? ==> r.next.state == ChangePage(w.state, Right)
    ensures Shows(w, b) && b.DoneButton? ==> r.next.state == Done
    ensures Shows(w, b) && b.TagButton? ==> r.next.data == AddTag(w.data, b.id)
    ensures Shows(w, b) && b.DeleteTagButton? ==> r.next.data == DeleteTag(w.data)
    ensures Shows(w, b) && b.CurrencyItem? ==>
      r.next.data == w.data.(currency := Some(Currencies[b.code]), checkedCurrency := Some(b.code))
    ensures Shows(w, b) && b.NegotiableBox? ==> r.next.data == w.data.(negotiable := !w.data.negotiable)
  {
    if !Shows(w, b) then Turn(w, Ignored)
    else
      var next := match b
        case LeftArrow => w.(state := ChangePage(w.state, Left))
        case RightArrow => w.(state := ChangePage(w.state, Right))
        case DoneButton => w.(state := Done)
        case TagButton(id) => w.(data := AddTag(w.data, id))
        case DeleteTagButton => w.(data := DeleteTag(w.data))
        case CurrencyItem(code) => w.(data := CurrencySelected(w.data, code).(checkedCurrency := Some(code)))
        case NegotiableBox => w.(data := w.data.(negotiable := !w.data.negotiable));
      Turn(next, Updated)
  }

  /** A text input's protocol: on a passing verdict store `d` and run `change_page`; otherwise report invalid input. */
  function Accept(w: Dialog, verdict: Outcome<Rejection>, d: Session): (r: Turn)
    requires OnRing(w.state)
    ensures r.reply == Updated <==> verdict.Pass?
    ensures r.reply != Updated ==> r == Turn(w, Invalid)
    ensures r.reply == Updated ==> r.next.data == d && OnRing(r.next.state)
    ensures r.reply == Updated && w.state != Tags ==> Index(r.next.state) == Index(w.state) + 1
    ensures r.reply == Updated && w.state == Tags ==> r.next.state == Tags
  {
    if verdict.Pass? then Turn(Dialog(ChangePage(w.state, Input), d), Updated) else Turn(w, Invalid)
  }

  /** The windows that hold a text input. */
  predicate TakesText(s: Sell) {
    s == Title || s == Description || s == Price || s == Contact
  }

  /** A message sent while the dialog is in `w`. */
  function Receive(w: Dialog, m: Message, ext: Externals): (r: Turn)
    requires WellFormedMessage(m)
    ensures r.reply != Updated ==> r.next == w
    ensures r.reply == Updated && TakesText(w.state) ==> Index(r.next.state) == Index(w.state) + 1
    ensures r.reply == Updated ==> m.TextMessage? || m.PhotoMessage?
    ensures w.state == Photo ==> r.next.state == Photo
    ensures !TakesText(w.state) && w.state != Photo ==> r == Turn(w, Ignored)
    ensures TakesText(w.state) && !m.TextMessage? ==> r == Turn(w, Ignored)
    ensures w.state == Title && m.TextMessage? ==>
      (r.reply == Updated <==> FixedSize64(m.text).Pass?)
      && (r.reply == Updated ==> r.next.data == w.data.(title := Some(m.text)))
      && (r.reply != Updated ==> r.reply == Invalid)
    ensures w.state == Description && m.TextMessage? ==>
      (r.reply == Updated <==> FixedSize1024(m.text).Pass?)
      && (r.reply == Updated ==> r.next.data == w.data.(description := Some(m.text)))
      && (r.reply != Updated ==> r.reply == Invalid)
    ensures w.state == Price && m.TextMessage? ==>
      (r.reply == Updated <==> PositiveFloat(m.text, ext.parseFloat).Pass?)
      && (r.reply == Updated ==> r.next.data == w.data.(price := ext.parseFloat(m.text)))
      && (r.reply != Updated ==> r.reply == Invalid)
    ensures w.state == Contact && m.TextMessage? ==>
      (r.reply == Updated <==> ValidatePhone(m.text, ext.phone).Pass?)
      && (r.reply == Updated ==> r.next.data == w.data.(contact := Some(m.text)))
      && (r.reply != Updated ==> r.reply == Invalid)
    ensures w.state == Photo ==>
      (r.reply == Updated <==> m.PhotoMessage?)
      && (r.reply == Updated ==> r.next.data == PicValidator(w.data, m).value)
      && (r.reply != Updated ==> r.reply == Invalid)
  {
    match w.state
    case Title =>
      if m.TextMessage? then Accept(w, FixedSize64(m.text), w.data.(title := Some(m.text))) else Turn(w, Ignored)
    case Description =>
      if m.TextMessage? then Accept(w, FixedSize1024(m.text), w.data.(description := Some(m.text))) else Turn(w, Ignored)
    case Price =>
      if m.TextMessage? then Accept(w, PositiveFloat(m.text, ext.parseFloat), w.data.(price := ext.parseFloat(m.text)))
      else Turn(w, Ignored)
    case Contact =>
      if m.TextMessage? then Accept(w, ValidatePhone(m.text, ext.phone), w.data.(contact := Some(m.text)))
      else Turn(w, Ignored)
    case Photo =>
      (match PicValidator(w.data, m)
       case Some(d) => Turn(w.(data := d), Updated)
       case None => Turn(w, Invalid))
    case Tags => Turn(w, Ignored)
    case Done => Turn(w, Ignored)
  }

  function Step(w: Dialog, e: Event, ext: Externals): Turn
    requires WellFormedEvent(e)
  {
    match e
    case Click(b) => Press(w, b)
    case Send(m) => Receive(w, m, ext)
  }

  predicate AllWellFormed(es: seq<Event>) {
    forall i :: 0 <= i < |es| ==> WellFormedEvent(es[i])
  }

  /** The dialog after the events `es`, in order. */
  function Run(w: Dialog, es: seq<Event>, ext: Externals): Dialog
    requires AllWellFormed(es)
    decreases |es|
  {
    if es == [] then w else Run(Step(w, es[0], ext).next, es[1..], ext)
  }

  // ----- the record's invariant -----

  /**
   * What every reachable record satisfies: each stored text passed its validator, tags and
   * symbols come from the fixed tables, a photo list is never empty, `quantity` is never set,
   * and the shown currency symbol is the symbol of the radio's checked item.
   */
  predicate Consistent(w: Dialog, ext: Externals) {
    var d := w.data;
    (d.title.Some? ==> FixedSize64(d.title.value).Pass?)
    && (d.description.Some? ==> FixedSize1024(d.description.value).Pass?)
    && (d.price.Some? ==> d.price.value > MinPrice)
    && (d.contact.Some? ==> ValidatePhone(d.contact.value, ext.phone).Pass?)
    && (d.tag.Some? ==> d.tag.value in TagNames.Values)
    && (d.photos.Some? ==> |d.photos.value| > 0)
    && !d.quantity
    && d.checkedCurrency.Some? && d.checkedCurrency.value in Currencies
    && DisplayCurrency(d) == Currencies[d.checkedCurrency.value]
  }

  lemma StartConsistent(ext: Externals)
    ensures Consistent(Start(), ext)
  {
  }

  lemma StepPreservesConsistent(w: Dialog, e: Event, ext: Externals)
    requires Consistent(w, ext) && WellFormedEvent(e)
    ensures Consistent(Step(w, e, ext).next, ext)
  {
    match e
    case Click(b) => PressPreservesConsistent(w, b, ext);
    case Send(m) => ReceivePreservesConsistent(w, m, ext);
  }

  lemma PressPreservesConsistent(w: Dialog, b: Button, ext: Externals)
    requires Consistent(w, ext)
    ensures Consistent(Press(w, b).next, ext)
  {
    if Shows(w, b) {
      match b
      case LeftArrow =>
      case RightArrow =>
      case DoneButton =>
      case TagButton(id) =>
      case DeleteTagButton =>
      case CurrencyItem(code) =>
        CurrencyItemConsistent(w, code, ext);
      case NegotiableBox =>
    }
  }

  /** A radio item stores its currency's symbol and checks itself, so the shown symbol stays the checked item's. */
  lemma CurrencyItemConsistent(w: Dialog, code: string, ext: Externals)
    requires Consistent(w, ext) && Shows(w, CurrencyItem(code))
    ensures Consistent(Press(w, CurrencyItem(code)).next, ext)
  {
    assert DisplayCurrency(Press(w, CurrencyItem(code)).next.data) == Currencies[code];
  }

  lemma ReceivePreservesConsistent(w: Dialog, m: Message, ext: Externals)
    requires Consistent(w, ext) && WellFormedMessage(m)
    ensures Consistent(Receive(w, m, ext).next, ext)
  {
    if TakesText(w.state) {
      ReceiveTextConsistent(w, m, ext);
    } else if w.state == Photo {
      ReceivePhotoConsistent(w, m, ext);
    }
  }

  /** An accepted text stores only what its window's check passed. */
  lemma ReceiveTextConsistent(w: Dialog, m: Message, ext: Externals)
    requires Consistent(w, ext) && WellFormedMessage(m) && TakesText(w.state)
    ensures Consistent(Receive(w, m, ext).next, ext)
  {
    var r := Receive(w, m, ext);
    if r.reply == Updated {
      var d := r.next.data;
      assert d.tag == w.data.tag && d.photos == w.data.photos && d.quantity == w.data.quantity;
      assert d.currency == w.data.currency && d.checkedCurrency == w.data.checkedCurrency;
    }
  }

  /** An accepted photo leaves a non-empty list and touches no other key. */
  lemma ReceivePhotoConsistent(w: Dialog, m: Message, ext: Externals)
    requires Consistent(w, ext) && WellFormedMessage(m) && w.state == Photo
    ensures Consistent(Receive(w, m, ext).next, ext)
  {
    var r := Receive(w, m, ext);
    if r.reply == Updated {
      assert |Photos(r.next.data)| > 0;
    }
  }

  /** Every record reached by a run from a consistent one is consistent. */
  lemma {:induction false} RunPreservesConsistent(w: Dialog, es: seq<Event>, ext: Externals)
    requires Consistent(w, ext) && AllWellFormed(es)
    ensures Consistent(Run(w, es, ext), ext)
    decreases |es|
  {
    if es != [] {
      StepPreservesConsistent(w, es[0], ext);
      assert AllWellFormed(es[1..]) by {
        forall i | 0 <= i < |es[1..]| ensures WellFormedEvent(es[1..][i]) {
          assert es[1..][i] == es[i + 1];
        }
      }
      RunPreservesConsistent(Step(w, es[0], ext).next, es[1..], ext);
    }
  }

  /** A consistent record can always be previewed: the stored contact parses. */
  lemma ConsistentIsShowable(w: Dialog, ext: Externals)
    requires Consistent(w, ext)
    ensures ContactShowable(w.data, ext.phone)
  {
  }

  /** The preview of any dialog reached from the start: the currency on the price line is the checked radio item's symbol, and the photo instruction always has its first-time wording. */
  lemma ReachablePreview(es: seq<Event>, ext: Externals)
    requires AllWellFormed(es)
    ensures var w := Run(Start(), es, ext);
      ContactShowable(w.data, ext.phone)
      && w.data.checkedCurrency.Some? && w.data.checkedCurrency.value in Currencies
      && (Render(w.state, w.data, ext.phone).rows[2].cell.Amount? ==>
            Render(w.state, w.data, ext.phone).rows[2].cell.currency == Currencies[w.data.checkedCurrency.value])
      && !Render(Photo, w.data, ext.phone).prompt.edit
  {
    StartConsistent(ext);
    RunPreservesConsistent(Start(), es, ext);
    var w := Run(Start(), es, ext);
    ConsistentIsShowable(w, ext);
    PriceLineAnnotation(w.state, w.data, ext.phone);
    PhotoPromptIgnoresPhotos(w.data, ext.phone);
  }

  // ----- navigation -----

  /** Only the "Готово" button leads into `Done`: neither the arrows nor an accepted input ever leave the ring. */
  lemma OnlyDoneButtonLeavesRing(w: Dialog, e: Event, ext: Externals)
    requires WellFormedEvent(e) && OnRing(w.state)
    ensures Step(w, e, ext).next.state == Done ==> e == Click(DoneButton)
  {
  }

  /** `Done` has no widgets: nothing the user does there changes anything. */
  lemma DoneIsFinal(w: Dialog, e: Event, ext: Externals)
    requires WellFormedEvent(e) && w.state == Done
    ensures Step(w, e, ext) == Turn(w, Ignored)
  {
  }

  // ----- tags -----

  /** Through the dialog a set tag is never replaced by another: only the delete button changes it, and it clears it. */
  lemma TagChangesOnlyByDeletion(w: Dialog, e: Event, ext: Externals)
    requires WellFormedEvent(e) && TagExist(w.data)
    ensures Step(w, e, ext).next.data.tag != w.data.tag ==>
      e == Click(DeleteTagButton) && TagIsEmpty(Step(w, e, ext).next.data)
  {
  }

  /** With no tag set, a tag button in the tag window stores that button's tag and stays in the window. */
  lemma TagButtonSetsTag(w: Dialog, id: string, ext: Externals)
    requires w.state == Tags && TagIsEmpty(w.data) && id in TagButtons
    ensures Step(w, Click(TagButton(id)), ext).next == w.(data := w.data.(tag := Some(TagNames[id])))
  {
  }

  // ----- photos -----

  /** One photo message per id, each with a single size. */
  function PhotoEvents(ids: seq<string>): (es: seq<Event>)
    ensures |es| == |ids| && AllWellFormed(es)
    ensures forall i :: 0 <= i < |ids| ==> es[i] == Send(PhotoMessage([ids[i]]))
  {
    seq(|ids|, i requires 0 <= i < |ids| => Send(PhotoMessage([ids[i]])))
  }

  /** In the photo window every photo is appended in order and nothing else changes: there is no cap. */
  lemma {:induction false} PhotosAccumulate(w: Dialog, ids: seq<string>, ext: Externals)
    requires w.state == Photo
    ensures var r := Run(w, PhotoEvents(ids), ext);
      r.state == Photo
      && Photos(r.data) == Photos(w.data) + ids
      && r.data == w.data.(photos := r.data.photos)
      && (|ids| > 0 ==> r.data.photos.Some?)
    decreases |ids|
  {
    var es := PhotoEvents(ids);
    if ids != [] {
      var w1 := Step(w, es[0], ext).next;
      assert Photos(w1.data) == Photos(w.data) + [ids[0]];
      assert es[1..] == PhotoEvents(ids[1..]);
      PhotosAccumulate(w1, ids[1..], ext);
      assert Photos(w.data) + [ids[0]] + ids[1..] == Photos(w.data) + ids;
    }
  }

  /** A sixth photo is accepted like the first five: the "maximum 5" appears only in the instruction text. */
  lemma SixthPhotoAccepted(w: Dialog, ids: seq<string>, ext: Externals)
    requires w.state == Photo && Photos(w.data) == [] && |ids| == 6
    ensures |Photos(Run(w, PhotoEvents(ids), ext).data)| == 6
  {
    PhotosAccumulate(w, ids, ext);
  }

  // ----- a whole session -----

  /** A run visits the dialogs of a trace whose every link is one step. */
  lemma {:induction false} RunFollowsTrace(es: seq<Event>, ws: seq<Dialog>, ext: Externals)
    requires AllWellFormed(es) && |ws| == |es| + 1
    requires forall i :: 0 <= i < |es| ==> Step(ws[i], es[i], ext).next == ws[i + 1]
    ensures Run(ws[0], es, ext) == ws[|es|]
    decreases |es|
  {
    if es != [] {
      assert AllWellFormed(es[1..]) by {
        forall i | 0 <= i < |es[1..]| ensures WellFormedEvent(es[1..][i]) {
          assert es[1..][i] == es[i + 1];
        }
      }
      forall i | 0 <= i < |es[1..]|
        ensures Step(ws[1..][i], es[1..][i], ext).next == ws[1..][i + 1]
      {
        assert Step(ws[i + 1], es[i + 1], ext).next == ws[i + 2];
      }
      RunFollowsTrace(es[1..], ws[1..], ext);
    }
  }

  /** The events of a sample session: a title, a too-long description, a description, a price, a phone number, one photo, ">>", the sport tag and "Готово". */
  function SampleEvents(): (es: seq<Event>)
    ensures AllWellFormed(es)
  {
    [Send(TextMessage("Bike")), Send(TextMessage(seq(2000, _ => 'a'))), Send(TextMessage("Road bike, barely used")),
     Send(TextMessage("15.5")), Send(TextMessage("380991234567")), Send(PhotoMessage(["small", "large"])),
     Click(RightArrow), Click(TagButton("sport")), Click(DoneButton)]
  }

  /** The records the sample session passes through, one per accepted input. */
  function SampleTitled(): Session {
    Start().data.(title := Some("Bike"))
  }

  function SampleDescribed(): Session {
    SampleTitled().(description := Some("Road bike, barely used"))
  }

  function SamplePriced(): Session {
    SampleDescribed().(price := Some(15.5))
  }

  function SampleWithContact(): Session {
    SamplePriced().(contact := Some("380991234567"))
  }

  function SamplePictured(): Session {
    SampleWithContact().(photos := Some(["large"]))
  }

  /** The record at the end of the sample session. */
  function SampleRecord(): Session {
    SamplePictured().(tag := Some("спорт"))
  }

  /** The dialogs the sample session passes through, one more than its events. */
  function SampleTrace(): seq<Dialog> {
    [Start(), Dialog(Description, SampleTitled()), Dialog(Description, SampleTitled()), Dialog(Price, SampleDescribed()),
     Dialog(Contact, SamplePriced()), Dialog(Photo, SampleWithContact()), Dialog(Photo, SamplePictured()),
     Dialog(Tags, SamplePictured()), Dialog(Tags, SampleRecord()), Dialog(Done, SampleRecord())]
  }

  lemma SampleTitleSteps(ext: Externals)
    ensures Step(Start(), Send(TextMessage("Bike")), ext).next == Dialog(Description, SampleTitled())
    ensures Step(Dialog(Description, SampleTitled()), Send(TextMessage(seq(2000, _ => 'a'))), ext).next
         == Dialog(Description, SampleTitled())
  {
    assert |seq(2000, _ => 'a')| == 2000;
  }

  lemma SampleDescriptionStep(ext: Externals)
    ensures Step(Dialog(Description, SampleTitled()), Send(TextMessage("Road bike, barely used")), ext).next
         == Dialog(Price, SampleDescribed())
  {
  }

  lemma SamplePriceStep(ext: Externals)
    requires ext.parseFloat("15.5") == Some(15.5)
    ensures Step(Dialog(Price, SampleDescribed()), Send(TextMessage("15.5")), ext).next == Dialog(Contact, SamplePriced())
  {
    assert PositiveFloat("15.5", ext.parseFloat).Pass?;
  }

  lemma SampleContactStep(ext: Externals)
    requires PhoneAccepted(ext.phone, "+380991234567")
    ensures Step(Dialog(Contact, SamplePriced()), Send(TextMessage("380991234567")), ext).next
         == Dialog(Photo, SampleWithContact())
  {
    assert WithPlus("380991234567") == "+380991234567";
    ContactAccepted(Dialog(Contact, SamplePriced()), "380991234567", ext);
  }

  /** In the contact window a number the library accepts is stored and the dialog moves to the photo window. */
  lemma ContactAccepted(w: Dialog, text: string, ext: Externals)
    requires w.state == Contact && ValidatePhone(text, ext.phone).Pass?
    ensures Step(w, Send(TextMessage(text)), ext).next == Dialog(Photo, w.data.(contact := Some(text)))
  {
  }

  lemma SamplePhotoStep(ext: Externals)
    ensures Step(Dialog(Photo, SampleWithContact()), Send(PhotoMessage(["small", "large"])), ext).next
         == Dialog(Photo, SamplePictured())
  {
    assert Photos(SampleWithContact()) + ["large"] == ["large"];
  }

  lemma SampleClickSteps(ext: Externals)
    ensures Step(Dialog(Photo, SamplePictured()), Click(RightArrow), ext).next == Dialog(Tags, SamplePictured())
    ensures Step(Dialog(Tags, SamplePictured()), Click(TagButton("sport")), ext).next == Dialog(Tags, SampleRecord())
    ensures Step(Dialog(Tags, SampleRecord()), Click(DoneButton), ext).next == Dialog(Done, SampleRecord())
  {
  }

  lemma SampleEarlyStep(i: nat, ext: Externals)
    requires i < 4 && ext.parseFloat("15.5") == Some(15.5)
    ensures Step(SampleTrace()[i], SampleEvents()[i], ext).next == SampleTrace()[i + 1]
  {
    if i < 2 {
      SampleTitleSteps(ext);
    } else if i == 2 {
      SampleDescriptionStep(ext);
    } else {
      SamplePriceStep(ext);
    }
  }

  lemma SampleLateStep(i: nat, ext: Externals)
    requires 4 <= i < 9 && PhoneAccepted(ext.phone, "+380991234567")
    ensures Step(SampleTrace()[i], SampleEvents()[i], ext).next == SampleTrace()[i + 1]
  {
    if i == 4 {
      SampleContactStep(ext);
    } else if i == 5 {
      SamplePhotoStep(ext);
    } else {
      SampleClickSteps(ext);
    }
  }

  /** The sample session from start to finish: the too-long description is refused in place, and the other events lead, through every window and the tag selection, to `Done`. */
  lemma SampleSession(ext: Externals)
    requires ext.parseFloat("15.5") == Some(15.5)
    requires PhoneAccepted(ext.phone, "+380991234567")
    ensures Run(Start(), SampleEvents(), ext) == Dialog(Done, SampleRecord())
  {
    var es, ws := SampleEvents(), SampleTrace();
    forall i | 0 <= i < |es|
      ensures Step(ws[i], es[i], ext).next == ws[i + 1]
    {
      if i < 4 {
        SampleEarlyStep(i, ext);
      } else {
        SampleLateStep(i, ext);
      }
    }
    RunFollowsTrace(es, ws, ext);
  }

  /** The finished sample's preview: the hryvnia price with the "final price" note, one photo and both hashtags. */
  lemma SamplePreview(ext: Externals)
    requires PhoneAccepted(ext.phone, "+380991234567")
    ensures ContactShowable(SampleRecord(), ext.phone)
    ensures Render(Done, SampleRecord(), ext.phone).rows[2].cell == Amount(Fraction(15.5), "₴", FinalNote)
    ensures Render(Done, SampleRecord(), ext.phone).rows[4].cell == Count(1)
    ensures Render(Done, SampleRecord(), ext.phone).rows[5].cell == Text("#продам, #спорт")
  {
    var d := SampleRecord();
    assert WithPlus("380991234567") == "+380991234567";
    HumanizeAfterValidate("380991234567", ext.phone);
    assert 15.5.Floor == 15;
    assert PriceCell(d) == Amount(Fraction(15.5), "₴", FinalNote);
    assert Photos(d) == ["large"];
    assert PhotoCell(d) == Count(1);
    assert MakeTags(d.tag, SellBoard) == "#продам, #спорт";
  }
}

=== FILE: wrappers.dfy ===
/** Optional values and pass/fail verdicts shared by the rest of the model. */
module Wrappers {

  /** A value that may be absent: a missing `widget_data` key, or a key holding `None`. */
  datatype Option<+T> = None | Some(value: T) {

    /** The held value, or `default` when absent (Python's `dict.get(key, default)`). */
    function GetOr(default: T): T {
      match this
      case Some(v) => v
      case None => default
    }
  }

  /** The verdict of a validator: it returns normally, or it raises with a reason. */
  datatype Outcome<+E> = Pass | Fail(error: E)
}
